=== FILE: README.md ===
# Employee CRUD: a verified model

This project models an employee-records application: an Angular client with a
list view, a create/edit form and a dashboard, backed by a small Express mock
server that keeps the records in memory. An employee has an id, a name, a
position and a salary.

The model has seven Dafny modules:

- `Wrappers`: `Option`.
- `Text`: the four JavaScript string operations the application relies on.
  These are `String.prototype.trim`, the decimal rendering of a number in a
  template literal, `parseInt` of a path segment, and a string's `length` in
  UTF-16 code units, which `Validators.minLength` compares.
- `MockServer`: the server's store. It is a `Store` class holding the ordered
  record list and the `nextId` counter. The five route handlers are its
  methods, each returning the status and the JSON body.
- `EmployeeService`: the HTTP requests the client issues (verb, URL, body), and
  `handleError`, which turns every failure into one message.
- `EmployeeForm`: the validators and the error texts, the payload built on
  submit, and the form component as a class.
- `EmployeeDashboard`: the count, the average salary and the five most recent
  employees, and the dashboard component.
- `EmployeeList`: the list component's loading, error and employees fields.

How the model represents the outside world:

- **Asynchronous answers are inputs.** Whatever HttpClient or an Observable
  delivers to a subscriber is a `Reply` argument: `Pending` (no answer yet),
  `Ok(value)` or `Failed(message)`.
- **`window.confirm` is an input.** Its answer is a `bool` argument.
- **Requests are recorded.** Each component appends every request it issues to
  its `requests` field.
- **Navigation is recorded.** The form appends every route it navigates to its
  `navigations` field.

## Model

| member | source | states |
|---|---|---|
| Text.Trim | src/app/components/employee-form/employee-form.component.ts:68-69 | the trimmed string neither starts nor ends with white space, and it is empty exactly when the input is all white space |
| Text.TrimIdempotent | src/app/components/employee-form/employee-form.component.ts:68-69 | trimming a trimmed string changes nothing |
| Text.TrimIsInfix | src/app/components/employee-form/employee-form.component.ts:68-69 | the trimmed string is a contiguous slice of the input, and only white space lies outside it |
| Text.TrimStart | mock-server.js:30 | parseInt's leading-space skip removes only white space, and what is left does not start with white space |
| Text.ShowNat | src/app/services/employee.service.ts:39 | a number's decimal rendering is a non-empty run of digits, with no leading zero unless the number is 0 |
| Text.Show | src/app/services/employee.service.ts:39 | `${id}` of an integer is non-empty: digits only for a non-negative number, a minus sign followed by digits for a negative one, and no leading zero except for 0 itself |
| Text.ParseInt | mock-server.js:30 | parseInt (also at lines 63 and 89) gives NaN for a blank string; a number is read only when the first non-blank character is a digit or a sign, and a negative one only after a minus |
| Text.Utf16Length | src/app/components/employee-form/employee-form.component.ts:27 | JavaScript's `length`, which minLength compares: zero only for the empty string, between the number of characters and twice that; one character counts 1 below U+10000 and 2 from there up |
| Text.Utf16LengthAppend | src/app/components/employee-form/employee-form.component.ts:27 | the length of a concatenation is the sum of the parts' lengths, so every character contributes its own code-unit count |
| Text.Utf16LengthOfBasicPlane | src/app/components/employee-form/employee-form.component.ts:27 | for characters below U+10000 the JavaScript length is the number of characters |
| Text.ParseIntOfShow | mock-server.js:30 | parseInt of a number's rendering gives the number back, whatever non-digit text follows |
| MockServer.IndexOf | mock-server.js:66 | findIndex gives the first position holding the id, and nothing exactly when no record has it |
| MockServer.Lookup | mock-server.js:30-31 | a path segment finds the record whose id equals parseInt of the segment, and nothing exactly when none does or the segment is not a number |
| MockServer.IncreasingIdsAreUnique | mock-server.js:11-19 | with ids increasing along the list, no two records share an id |
| MockServer.RemoveKeepsIncreasing | mock-server.js:96 | splicing one record out keeps the ids increasing |
| MockServer.FoundAtEnd | mock-server.js:56 | a record pushed with an id above all others is found at the end |
| MockServer.Store.constructor | mock-server.js:11-19 | the store starts with the five seed records and `nextId = 6`, and the invariant holds |
| MockServer.Store.List | mock-server.js:23-26 | GET /employees answers 200 with the whole list in stored order and changes nothing |
| MockServer.Store.Get | mock-server.js:29-39 | GET /employees/:id answers 200 with the record whose id is the parsed id, or 404 with the not-found message, and changes nothing |
| MockServer.Store.Create | mock-server.js:42-59 | without a name: 400 and nothing changes. Otherwise: exactly one record is appended, with `id = old nextId` (never issued before), the name, `position` or '' and `salary` or 0. `nextId` grows by one, the answer is 201 with that record, and the invariant is kept |
| MockServer.Store.Update | mock-server.js:62-85 | a missing id gives 404 even without a name; a missing name gives 400; neither changes anything. Otherwise only the found position is replaced, by a record carrying the path id, and the answer is 200 with it. `nextId` and the invariant are kept |
| MockServer.Store.Delete | mock-server.js:88-99 | a missing id gives 404 and nothing changes. Otherwise exactly that record is removed, the others keep their order, the answer is the removed record with the message, and `nextId` is untouched |
| MockServer.CreateThenGet | mock-server.js:29-59 | a record just created is what a GET of its id returns |
| MockServer.DeleteThenGet | mock-server.js:42-99 | after a successful delete, GET of the same segment answers 404, and a later create never reuses the deleted id |
| EmployeeService.CreateEmployee | src/app/services/employee.service.ts:43-50 | POST to the base URL with the employee's id removed and every other field unchanged |
| EmployeeService.UpdateEmployee | src/app/services/employee.service.ts:52-59 | PUT to `base/id` with the employee whose id is overwritten by the path id and whose other fields are unchanged |
| EmployeeService.IdUrlRoundTrip | src/app/services/employee.service.ts:57 | the URL is `base + "/" + id`, and the server's parseInt of the segment after it reads back exactly `id` |
| EmployeeService.CreateIgnoresClientId | src/app/services/employee.service.ts:45 | the id a caller leaves in the record never changes the create request |
| EmployeeService.UpdatePathAndBodyAgree | src/app/services/employee.service.ts:54-57 | the id the server reads from an update's path equals the id in its body |
| EmployeeService.OperationTargets | src/app/services/employee.service.ts:30-65 | list and create target the base URL; get, update and delete target `base/id`, each with its verb |
| EmployeeService.HandleError | src/app/services/employee.service.ts:67-89 | a client-side error, and only that, gives "Error del cliente: " followed by its message. A server error starts with "Error del servidor: " followed by the status, which parseInt reads back, then " - " and the status text; what follows is " - " and the body when the body is a non-empty string, and nothing otherwise |
| EmployeeService.CatchError | src/app/services/employee.service.ts:34 | values pass through unchanged, and every failure reaches the subscriber as handleError's message |
| EmployeeForm.ControlNamed | src/app/components/employee-form/employee-form.component.ts:111 | a key finds the control registered under it, and no control for any other key |
| EmployeeForm.FormValidAsWrittenIff | src/app/components/employee-form/employee-form.component.ts:26-30 | with the validators as declared, the form is valid exactly when the raw name is at least 2 UTF-16 code units long (JavaScript's `length`) and a salary, if given, is at least 0 |
| EmployeeForm.FormValidIff | src/app/components/employee-form/employee-form.component.ts:26-30 | the corrected form is valid exactly when the trimmed name is at least 2 UTF-16 code units long and a salary, if given, is at least 0 |
| EmployeeForm.GetFieldError | src/app/components/employee-form/employee-form.component.ts:110-124 | no text for an unknown key. Otherwise there is a text exactly when the control is touched and invalid under the declared validators (raw name, its length in UTF-16 code units), and it is the first of required, minlength, min |
| EmployeeForm.NoErrorShownWhenValid | src/app/components/employee-form/employee-form.component.ts:110-124 | a form valid under the declared validators shows no error under any control |
| EmployeeForm.ErrorShownWhenAllTouched | src/app/components/employee-form/employee-form.component.ts:97-103 | once onSubmit has touched every control, a form invalid under the declared validators shows an error under the name or the salary |
| EmployeeForm.RequiredExample | src/app/components/employee-form/employee-form.component.ts:113-114 | a touched empty name shows "name es requerido" |
| EmployeeForm.MinLengthExample | src/app/components/employee-form/employee-form.component.ts:116-117 | a touched one-letter name shows "name debe tener al menos 2 caracteres" |
| EmployeeForm.MinExample | src/app/components/employee-form/employee-form.component.ts:119-120 | a touched negative salary shows "salary debe ser mayor o igual a 0" |
| EmployeeForm.SurrogatePairNameExample | src/app/components/employee-form/employee-form.component.ts:27 | a name made of one emoji (U+1F600, two code units) passes the declared validators and shows no error |
| EmployeeForm.Payload | src/app/components/employee-form/employee-form.component.ts:66-76 | the id is present exactly in edit mode with a non-zero id, and is that id; the name is the trimmed name, the position the trimmed position; the salary is the number entered, or 0 |
| EmployeeForm.PayloadTrimmed | src/app/components/employee-form/employee-form.component.ts:68-69 | the sent name and position are the entered ones trimmed, so trimming them again changes nothing, and the name is empty exactly when the control held only white space |
| EmployeeForm.Patched | src/app/components/employee-form/employee-form.component.ts:48 | patchValue sets the name from the record, and the position and salary from the record when it carries them, keeping the control's value otherwise |
| EmployeeForm.SubmitRequest | src/app/components/employee-form/employee-form.component.ts:80-82 | edit mode issues a PUT, create mode a POST, each with a body whose name is the trimmed name |
| EmployeeForm.ValidFormSendsAcceptedBody | src/app/components/employee-form/employee-form.component.ts:61-82 | under the corrected validation, what a valid form sends has a name at least 2 UTF-16 code units long and a non-negative salary, so the server's name check passes |
| EmployeeForm.BlankNamePassesAsWritten | src/app/components/employee-form/employee-form.component.ts:26-30 | the name "  " passes the validators as declared but is sent as "", which the server rejects with 400 |
| EmployeeForm.SubmitRequestTargets | src/app/components/employee-form/employee-form.component.ts:80-82 | edit mode sends PUT to the edited id's URL with that id in the body; create mode sends POST to the base URL without an id; the other fields are the payload |
| EmployeeForm.EmployeeFormComponent.constructor | src/app/components/employee-form/employee-form.component.ts:15-30 | empty controls, nothing touched, create mode, no id, not loading, no error |
| EmployeeForm.EmployeeFormComponent.NgOnInit | src/app/components/employee-form/employee-form.component.ts:33-41 | without an id parameter nothing changes. With one, edit mode is entered with that id, and the record is loaded |
| EmployeeForm.EmployeeFormComponent.LoadEmployee | src/app/components/employee-form/employee-form.component.ts:43-57 | without an id, or with id 0, nothing happens. Otherwise the record is fetched: success patches the controls and clears loading; failure sets the load error and clears loading |
| EmployeeForm.EmployeeFormComponent.OnSubmit | src/app/components/employee-form/employee-form.component.ts:60-104 | an invalid form only marks every control touched: no request, no navigation. A form valid under the declared validators (raw name) sets loading and clears the error, then issues update(id) in edit mode or create otherwise. On success it navigates to /employees. On failure it sets the mode's error, clears loading and does not navigate. The values are never changed |
| EmployeeForm.EmployeeFormComponent.Submit | src/app/components/employee-form/employee-form.component.ts:62-96 | the given request is appended, with loading set and the error cleared. On success it navigates to /employees. On failure it sets the mode's error and clears loading. The values, mode, id and touched set stay as they were |
| EmployeeForm.EmployeeFormComponent.MarkAllTouched | src/app/components/employee-form/employee-form.component.ts:100-102 | after the loop every control is touched |
| EmployeeForm.EmployeeFormComponent.OnCancel | src/app/components/employee-form/employee-form.component.ts:106-108 | navigates to /employees |
| EmployeeDashboard.TotalSalary | src/app/components/employee-dashboard/employee-dashboard.component.ts:46 | the reduce starts from 0: no employees sum to 0, and one employee sums to their salary, or 0 when it is missing |
| EmployeeDashboard.TotalSalaryAppend | src/app/components/employee-dashboard/employee-dashboard.component.ts:46 | the salary sum of a concatenation is the sum of the parts' sums |
| EmployeeDashboard.TotalSalaryBounds | src/app/components/employee-dashboard/employee-dashboard.component.ts:46 | with every salary (missing counted as 0) between lo and hi, the sum lies between n·lo and n·hi |
| EmployeeDashboard.AverageSalary | src/app/components/employee-dashboard/employee-dashboard.component.ts:40-48 | 0 for no employees; otherwise the average times the count is the salary sum |
| EmployeeDashboard.AverageWithinBounds | src/app/components/employee-dashboard/employee-dashboard.component.ts:40-48 | the average lies between any lower and upper bound of the salaries |
| EmployeeDashboard.AverageOfEqualSalaries | src/app/components/employee-dashboard/employee-dashboard.component.ts:40-48 | employees with the same salary average exactly that salary |
| EmployeeDashboard.Reverse | src/app/components/employee-dashboard/employee-dashboard.component.ts:30 | same length, element i is the input's element n-1-i |
| EmployeeDashboard.ReverseReverse | src/app/components/employee-dashboard/employee-dashboard.component.ts:30 | reversing twice restores the order |
| EmployeeDashboard.RecentEmployees | src/app/components/employee-dashboard/employee-dashboard.component.ts:30 | the result has min(n, 5) elements, element i is the fetched list's element n-1-i, and it holds the last five, most recent first |
| EmployeeDashboard.ShortListShownReversed | src/app/components/employee-dashboard/employee-dashboard.component.ts:30 | with five employees or fewer, the whole list is shown reversed |
| EmployeeDashboard.RecentAreFetched | src/app/components/employee-dashboard/employee-dashboard.component.ts:30 | every recent employee is one of the fetched employees |
| EmployeeDashboard.EmployeeDashboardComponent.constructor | src/app/components/employee-dashboard/employee-dashboard.component.ts:13-16 | statistics start at 0 and an empty recent list, not loading |
| EmployeeDashboard.EmployeeDashboardComponent.LoadDashboardData | src/app/components/employee-dashboard/employee-dashboard.component.ts:24-38 | the list is fetched and loading is set. On success: not loading, and count, average and recent list computed from the fetched list alone. On failure: not loading, statistics kept. While pending: loading, statistics kept |
| EmployeeDashboard.EmployeeDashboardComponent.CalculateAverageSalary | src/app/components/employee-dashboard/employee-dashboard.component.ts:40-48 | the average field is set to the average salary, with 0 for no employees |
| EmployeeList.EmployeeListComponent.constructor | src/app/components/employee-list/employee-list.component.ts:13-15 | empty list, not loading, no error |
| EmployeeList.EmployeeListComponent.LoadEmployees | src/app/components/employee-list/employee-list.component.ts:23-38 | the list is fetched. Success replaces the list, clears loading and leaves no error. Failure sets the load error, clears loading and keeps the list. While pending: loading, no error |
| EmployeeList.EmployeeListComponent.DeleteEmployee | src/app/components/employee-list/employee-list.component.ts:40-52 | unconfirmed: no request, nothing changes. Confirmed: the delete is issued. Success reloads the whole list exactly as LoadEmployees. Failure sets the delete error and keeps the list and loading flag. The list is never edited locally: it is either unchanged or the reloaded list |

## Left out

- Express plumbing in mock-server.js is not modelled: `cors`, `express.json`, `app.listen`, the console output and the catch-all 500 handler (lines 102-117). These are library and I/O behaviour.
- The console logging in every file is not modelled: it has no effect on state.
- A request body's fields are typed (`Option<string>`, `Option<int>`). `!name`, `position || ''` and `salary || 0` are modelled for absent values and the empty string. Other JavaScript falsy values (`0`, `false`, `NaN` where a string is expected) are not modelled.
- Text.ParseIntOfShow: parseInt is modelled for optional leading white space, one sign and the longest run of ASCII digits, with `None` for NaN. Radix prefixes and precision loss above 2^53 are not modelled. Nor is the exponent notation a template literal uses from 1e21 on (`${1e21}` is "1e+21", which parseInt reads as 1), so in JavaScript the round trip only holds below that.
- Text.IsWhitespace is ECMAScript's WhiteSpace and LineTerminator set (tab to carriage return, space, no-break space, U+1680, U+2000 to U+200A, U+2028, U+2029, U+202F, U+205F, U+3000 and the byte-order mark). Trim, TrimStart and so ParseInt share it. A JavaScript engine takes the space separators from its own Unicode version; the model fixes the list above.
- HttpClient is not modelled: the JSON headers, serialisation and the Observable pipeline. Every answer arrives as a `Reply` argument in the same call, and a later answer after `Pending` is not modelled.
- Angular form internals are not modelled: value changes from the user, status recomputation and `markAsTouched` beyond the touched set. `employeeForm.valid` is the declared validators applied to the current values, with the name untrimmed (`EmployeeForm.FormValidAsWritten`).
- EmployeeForm.EmployeeFormComponent.NgOnInit: the route parameter is modelled as an optional number. A non-numeric parameter (`+params['id']` giving NaN) is not modelled.
- EmployeeForm.Payload: the salary control holds an optional integer, so `Number(formValue.salary)` of a non-numeric or fractional input is not modelled.
- `ngOnInit` of the list and the dashboard only calls the load method and is not modelled separately.
- EmployeeDashboard.AverageSalary: the average is an exact `real`. Floating-point rounding of the division and the template's currency formatting are not modelled.
- The HTML templates and CSS are not modelled, and neither is the router table (src/app/app.routes.ts).

## Findings

| source | as written | input that shows it | evidently intended | confidence | as-written member | corrected member |
|---|---|---|---|---|---|---|
| src/app/components/employee-form/employee-form.component.ts:27-68 | `Validators.required` and `Validators.minLength(2)` check the raw name, but onSubmit sends `name.trim()` | name "  " (two spaces): the form is valid, the payload's name is "", and the server answers 400 "El nombre es requerido" | a valid form always sends a name of at least two characters, i.e. the rules apply to the trimmed name | medium, not executed | EmployeeForm.BlankNamePassesAsWritten | EmployeeForm.ValidFormSendsAcceptedBody |

The as-written validation is `EmployeeForm.FormValidAsWritten`, with its
errors in `EmployeeForm.ErrorsAsWritten`; `GetFieldError` and the component's
`OnSubmit` use it, as the form component does. The corrected validation is
`EmployeeForm.FormValid`, with its errors in `EmployeeForm.Errors`: the same
rules applied to the trimmed name. `FormValidIff` and
`ValidFormSendsAcceptedBody` are stated about it.

=== FILE: employee_dashboard.dfy ===
/**
 * The dashboard: how many employees there are, their average salary and the
 * five most recently added, all derived from one fetch of the list.
 */
module EmployeeDashboard {
  import opened EmployeeService

  /** How many of the last employees the dashboard shows. */
  const RecentCount := 5

  /** `emp.salary || 0`: a missing salary counts as 0. */
  function SalaryOrZero(e: Employee): int {
    e.salary.GetOr(0)
  }

  /**
   * The `reduce` of the salaries, folded from the left from the initial 0: no
   * employees total 0 and a single employee totals their own salary (sums of
   * longer lists are described by TotalSalaryAppend and TotalSalaryBounds).
   */
  function TotalSalary(es: seq<Employee>): (t: int)
    ensures |es| == 0 ==> t == 0
    ensures |es| == 1 ==> t == SalaryOrZero(es[0])
  {
    if |es| == 0 then 0 else TotalSalary(es[..|es| - 1]) + SalaryOrZero(es[|es| - 1])
  }

  /** Summing a concatenation sums the two parts. */
  lemma {:induction false} TotalSalaryAppend(a: seq<Employee>, b: seq<Employee>)
    ensures TotalSalary(a + b) == TotalSalary(a) + TotalSalary(b)
    decreases |b|
  {
    if |b| == 0 {
      assert a + b == a;
    } else {
      var c := b[..|b| - 1];
      assert (a + b)[..|a + b| - 1] == a + c;
      TotalSalaryAppend(a, c);
    }
  }

  /** If every salary lies between `lo` and `hi`, the total lies between `n*lo` and `n*hi`. */
  lemma {:induction false} TotalSalaryBounds(es: seq<Employee>, lo: int, hi: int)
    requires forall i :: 0 <= i < |es| ==> lo <= SalaryOrZero(es[i]) <= hi
    ensures |es| * lo <= TotalSalary(es) <= |es| * hi
  {
    if |es| > 0 {
      var p := es[..|es| - 1];
      assert forall i :: 0 <= i < |p| ==> p[i] == es[i];
      TotalSalaryBounds(p, lo, hi);
      BoundsStep(|p|, TotalSalary(p), SalaryOrZero(es[|es| - 1]), lo, hi);
    }
  }

  /** Adding one amount between `lo` and `hi` to a total of `n` such amounts keeps the bounds. */
  lemma BoundsStep(n: int, t: int, x: int, lo: int, hi: int)
    requires n * lo <= t <= n * hi && lo <= x <= hi
    ensures (n + 1) * lo <= t + x <= (n + 1) * hi
  {
    assert (n + 1) * lo == n * lo + lo;
    assert (n + 1) * hi == n * hi + hi;
  }

  /** calculateAverageSalary's value: 0 for no employees, otherwise total over count. */
  function AverageSalary(es: seq<Employee>): (avg: real)
    ensures |es| == 0 ==> avg == 0.0
    ensures |es| > 0 ==> avg * (|es| as real) == TotalSalary(es) as real
  {
    if |es| == 0 then 0.0 else TotalSalary(es) as real / (|es| as real)
  }

  /** The average lies between the smallest and the largest salary bound. */
  lemma AverageWithinBounds(es: seq<Employee>, lo: int, hi: int)
    requires |es| > 0
    requires forall i :: 0 <= i < |es| ==> lo <= SalaryOrZero(es[i]) <= hi
    ensures lo as real <= AverageSalary(es) <= hi as real
  {
    var n, t, q := |es|, TotalSalary(es), AverageSalary(es);
    TotalSalaryBounds(es, lo, hi);
    QuotientOfBoundedTotal(t, n, q, lo, hi);
  }

  /** A total of `n` amounts between `lo` and `hi`, divided by `n`, lies between `lo` and `hi`. */
  lemma QuotientOfBoundedTotal(t: int, n: int, q: real, lo: int, hi: int)
    requires n > 0 && q * (n as real) == t as real
    requires n * lo <= t <= n * hi
    ensures lo as real <= q <= hi as real
  {
    ProductAsReal(n, lo);
    ProductAsReal(n, hi);
    QuotientBounds(t as real, n as real, q, lo as real, hi as real);
  }

  lemma ProductAsReal(a: int, b: int)
    ensures (a * b) as real == (a as real) * (b as real)
  {
  }

  /** A quotient of a positive divisor inherits the bounds of its dividend. */
  lemma QuotientBounds(t: real, n: real, q: real, lo: real, hi: real)
    requires n > 0.0 && q * n == t
    requires n * lo <= t <= n * hi
    ensures lo <= q <= hi
  {
  }

  /** Employees all earning the same salary average exactly that salary. */
  lemma AverageOfEqualSalaries(es: seq<Employee>, s: int)
    requires |es| > 0
    requires forall i :: 0 <= i < |es| ==> SalaryOrZero(es[i]) == s
    ensures AverageSalary(es) == s as real
  {
    AverageWithinBounds(es, s, s);
  }

  /** `Array.prototype.reverse` on a copy. */
  function Reverse<T>(s: seq<T>): (r: seq<T>)
    ensures |r| == |s|
    ensures forall i :: 0 <= i < |s| ==> r[i] == s[|s| - 1 - i]
  {
    if |s| == 0 then [] else [s[|s| - 1]] + Reverse(s[..|s| - 1])
  }

  /** Reversing twice gives back the original order. */
  lemma ReverseReverse<T>(s: seq<T>)
    ensures Reverse(Reverse(s)) == s
  {
    var r := Reverse(Reverse(s));
    assert forall i :: 0 <= i < |s| ==> r[i] == s[i];
  }

  /** `employees.slice(-5).reverse()`: the last five, most recent first. */
  function RecentEmployees(es: seq<Employee>): (r: seq<Employee>)
    ensures |r| == if |es| < RecentCount then |es| else RecentCount
    ensures forall i :: 0 <= i < |r| ==> r[i] == es[|es| - 1 - i]
  {
    var k := if |es| < RecentCount then |es| else RecentCount;
    Reverse(es[|es| - k..])
  }

  /** With at most five employees, the dashboard shows all of them in reverse order. */
  lemma ShortListShownReversed(es: seq<Employee>)
    requires |es| <= RecentCount
    ensures RecentEmployees(es) == Reverse(es)
  {
    var r := RecentEmployees(es);
    assert forall i :: 0 <= i < |es| ==> r[i] == Reverse(es)[i];
  }

  /** Every employee shown as recent is one of the fetched employees. */
  lemma RecentAreFetched(es: seq<Employee>)
    ensures forall e :: e in RecentEmployees(es) ==> e in es
  {
    var r := RecentEmployees(es);
    forall e | e in r
      ensures e in es
    {
      var i :| 0 <= i < |r| && r[i] == e;
      assert es[|es| - 1 - i] == e;
    }
  }

  class EmployeeDashboardComponent {
    var totalEmployees: int
    var averageSalary: real
    var recentEmployees: seq<Employee>
    var loading: bool
    /** The HTTP requests issued so far, oldest first. */
    var requests: seq<Request>

    /** Statistics start at zero, with nothing loading. */
    constructor ()
      ensures totalEmployees == 0 && averageSalary == 0.0 && recentEmployees == []
      ensures !loading && requests == []
    {
      totalEmployees := 0;
      averageSalary := 0.0;
      recentEmployees := [];
      loading := false;
      requests := [];
    }

    /**
     * loadDashboardData: fetch the list; on success every statistic is
     * recomputed from the fetched list alone, on failure they stay as they were.
     */
    method LoadDashboardData(fetched: Reply<seq<Employee>>)
      modifies this
      ensures requests == old(requests) + [GetEmployees()]
      ensures fetched.Pending? ==>
                && loading
                && totalEmployees == old(totalEmployees) && averageSalary == old(averageSalary)
                && recentEmployees == old(recentEmployees)
      ensures fetched.Ok? ==>
                && !loading
                && totalEmployees == |fetched.value|
                && averageSalary == AverageSalary(fetched.value)
                && recentEmployees == RecentEmployees(fetched.value)
      ensures fetched.Failed? ==>
                && !loading
                && totalEmployees == old(totalEmployees) && averageSalary == old(averageSalary)
                && recentEmployees == old(recentEmployees)
    {
      loading := true;
      requests := requests + [GetEmployees()];
      match fetched
      case Pending =>
      case Ok(employees) =>
        totalEmployees := |employees|;
        CalculateAverageSalary(employees);
        recentEmployees := RecentEmployees(employees);
        loading := false;
      case Failed(_) =>
        loading := false;
    }

    /** calculateAverageSalary: 0 for an empty list, else the total divided by the count. */
    method CalculateAverageSalary(employees: seq<Employee>)
      modifies this`averageSalary
      ensures averageSalary == AverageSalary(employees)
    {
      if |employees| == 0 {
        averageSalary := 0.0;
        return;
      }
      var totalSalary := TotalSalary(employees);
      averageSalary := totalSalary as real / (|employees| as real);
    }
  }
}

=== FILE: employee_form.dfy ===
/**
 * The create/edit form: three controls with their validators, the error text
 * shown under a touched control, the payload built on submit, and the
 * component's state (edit mode, id, loading flag, error banner).
 */
module EmployeeForm {
  import opened Wrappers
  import opened Text
  import opened EmployeeService
  import MockServer

  datatype Field = Name | Position | Salary

  /** The controls in the order the form group declares them. */
  const Controls: seq<Field> := [Name, Position, Salary]

  const MinNameLength := 2
  const MinSalary := 0

  const ListRoute := "/employees"
  const LoadErrorMessage := "Error al cargar el empleado"
  const CreateErrorMessage := "Error al crear el empleado"
  const UpdateErrorMessage := "Error al actualizar el empleado"

  function ControlKey(f: Field): string {
    match f
    case Name => "name"
    case Position => "position"
    case Salary => "salary"
  }

  /** `employeeForm.get(key)`: the control registered under `key`, if any. */
  function ControlNamed(key: string): (f: Option<Field>)
    ensures f.Some? ==> ControlKey(f.value) == key
    ensures f.None? ==> forall g :: ControlKey(g) != key
  {
    if key == "name" then Some(Name)
    else if key == "position" then Some(Position)
    else if key == "salary" then Some(Salary)
    else None
  }

  /** The control values; an empty salary input is None. */
  datatype FormValues = FormValues(name: string, position: string, salary: Option<int>)

  /** The errors object of one control. */
  datatype ValidationErrors = ValidationErrors(required: bool, minlength: bool, min: bool) {
    predicate Invalid() {
      required || minlength || min
    }
  }

  /**
   * Validators.required and Validators.minLength(2) on a string: an empty
   * value is only "required"; minLength ignores it, and measures the
   * JavaScript length, in UTF-16 code units.
   */
  function NameRuleErrors(s: string): ValidationErrors {
    ValidationErrors(|s| == 0, 0 < Utf16Length(s) < MinNameLength, false)
  }

  /** Validators.min(0): an empty input passes. */
  function SalaryRuleErrors(v: Option<int>): ValidationErrors {
    ValidationErrors(false, false, v.Some? && v.value < MinSalary)
  }

  /** The validators as the form group declares them: the name is checked untrimmed. */
  function ErrorsAsWritten(f: Field, v: FormValues): ValidationErrors {
    match f
    case Name => NameRuleErrors(v.name)
    case Position => ValidationErrors(false, false, false)
    case Salary => SalaryRuleErrors(v.salary)
  }

  /** `employeeForm.valid`: no control has an error under the declared validators. */
  predicate FormValidAsWritten(v: FormValues) {
    !ErrorsAsWritten(Name, v).Invalid() && !ErrorsAsWritten(Position, v).Invalid()
    && !ErrorsAsWritten(Salary, v).Invalid()
  }

  /**
   * The corrected validators: the name rules applied to the name as it will be
   * sent, i.e. trimmed.
   */
  function Errors(f: Field, v: FormValues): ValidationErrors {
    match f
    case Name => NameRuleErrors(Trim(v.name))
    case Position => ValidationErrors(false, false, false)
    case Salary => SalaryRuleErrors(v.salary)
  }

  /** The corrected validity: no control has an error once the name is trimmed. */
  predicate FormValid(v: FormValues) {
    !Errors(Name, v).Invalid() && !Errors(Position, v).Invalid() && !Errors(Salary, v).Invalid()
  }

  /** As written, the form is valid exactly when the raw name has two characters and the salary is not negative. */
  lemma FormValidAsWrittenIff(v: FormValues)
    ensures FormValidAsWritten(v) <==>
              Utf16Length(v.name) >= MinNameLength && (v.salary.Some? ==> v.salary.value >= MinSalary)
  {
  }

  /** The form is valid exactly when the trimmed name has two characters and the salary is not negative. */
  lemma FormValidIff(v: FormValues)
    ensures FormValid(v) <==>
              Utf16Length(Trim(v.name)) >= MinNameLength && (v.salary.Some? ==> v.salary.value >= MinSalary)
  {
  }

  /** The text for the first error of a control, in the order required, minlength, min. */
  function ErrorMessage(key: string, errs: ValidationErrors): string
    requires errs.Invalid()
  {
    if errs.required then key + " es requerido"
    else if errs.minlength then key + " debe tener al menos 2 caracteres"
    else key + " debe ser mayor o igual a 0"
  }

  /** getFieldError: nothing unless the control exists, is touched and is invalid; then its first error. */
  function GetFieldError(key: string, v: FormValues, touched: set<Field>): (r: Option<string>)
    ensures ControlNamed(key).None? ==> r.None?
    ensures ControlNamed(key).Some? ==>
              var f := ControlNamed(key).value;
              && (r.Some? <==> f in touched && ErrorsAsWritten(f, v).Invalid())
              && (r.Some? ==> r.value == ErrorMessage(key, ErrorsAsWritten(f, v)))
  {
    match ControlNamed(key)
    case None => None
    case Some(f) =>
      if f in touched && ErrorsAsWritten(f, v).Invalid() then Some(ErrorMessage(key, ErrorsAsWritten(f, v))) else None
  }

  /** A valid form shows no error under any control, touched or not. */
  lemma NoErrorShownWhenValid(v: FormValues, key: string, touched: set<Field>)
    requires FormValidAsWritten(v)
    ensures GetFieldError(key, v, touched).None?
  {
  }

  /** Once every control is touched, an invalid form shows an error under the name or the salary. */
  lemma ErrorShownWhenAllTouched(v: FormValues)
    requires !FormValidAsWritten(v)
    ensures GetFieldError("name", v, {Name, Position, Salary}).Some?
            || GetFieldError("salary", v, {Name, Position, Salary}).Some?
  {
    assert ControlNamed("name") == Some(Name) && ControlNamed("salary") == Some(Salary);
  }

  /** A touched empty name reports that it is required, and nothing else. */
  lemma RequiredExample()
    ensures GetFieldError("name", FormValues("", "", None), {Name}) == Some("name" + " es requerido")
  {
    assert ControlNamed("name") == Some(Name);
  }

  /** A touched one-letter name reports the minimum length (the tests' "A"). */
  lemma MinLengthExample()
    ensures GetFieldError("name", FormValues("A", "", None), {Name})
            == Some("name" + " debe tener al menos 2 caracteres")
  {
    assert ControlNamed("name") == Some(Name);
  }

  /**
   * One emoji outside the basic plane is two UTF-16 code units long, so as a
   * name it passes minLength(2) and shows no error.
   */
  lemma SurrogatePairNameExample()
    ensures FormValidAsWritten(FormValues("\U{1F600}", "", None))
    ensures GetFieldError("name", FormValues("\U{1F600}", "", None), {Name}) == None
  {
    assert ControlNamed("name") == Some(Name);
    assert Utf16Length("\U{1F600}") == 2 by {
      assert "\U{1F600}"[..0] == [];
    }
  }

  /** A touched negative salary reports the minimum. */
  lemma MinExample()
    ensures GetFieldError("salary", FormValues("", "", Some(-100)), {Salary})
            == Some("salary" + " debe ser mayor o igual a 0")
  {
    assert ControlNamed("salary") == Some(Salary);
  }

  /**
   * The employee built on submit: name and position trimmed, salary the
   * number entered or 0, and the id only in edit mode with a non-zero id.
   */
  function Payload(v: FormValues, isEditMode: bool, employeeId: Option<int>): (e: Employee)
    ensures e.id.Some? <==> isEditMode && employeeId.Some? && employeeId.value != 0
    ensures e.id.Some? ==> e.id == employeeId
    ensures e.name == Trim(v.name) && e.position == Some(Trim(v.position))
    ensures e.salary == Some(v.salary.GetOr(0))
  {
    Employee(
      if isEditMode && employeeId.Some? && employeeId.value != 0 then employeeId else None,
      Trim(v.name),
      Some(Trim(v.position)),
      Some(v.salary.GetOr(0)))
  }

  /** The name and position are sent trimmed; the name is empty exactly when the control held only whitespace. */
  lemma PayloadTrimmed(v: FormValues, isEditMode: bool, employeeId: Option<int>)
    ensures var e := Payload(v, isEditMode, employeeId);
            && e.name == Trim(v.name) && e.position == Some(Trim(v.position))
            && Trim(e.name) == e.name && (e.name == [] <==> AllWhitespace(v.name))
            && Trim(e.position.value) == e.position.value
  {
    TrimIdempotent(v.name);
    TrimIdempotent(v.position);
  }

  /** What a valid form sends passes the server's name check and carries a non-negative salary. */
  lemma ValidFormSendsAcceptedBody(v: FormValues, isEditMode: bool, employeeId: Option<int>)
    requires FormValid(v)
    ensures Utf16Length(Payload(v, isEditMode, employeeId).name) >= MinNameLength
    ensures Payload(v, isEditMode, employeeId).salary.value >= MinSalary
    ensures !MockServer.NameMissing(ReceivedBody(Payload(v, isEditMode, employeeId)))
  {
    FormValidIff(v);
  }

  /**
   * As written, a name of two spaces passes both validators, is trimmed to
   * the empty string on submit, and the server answers 400.
   */
  lemma BlankNamePassesAsWritten()
    ensures FormValidAsWritten(FormValues("  ", "", None))
    ensures !FormValid(FormValues("  ", "", None))
    ensures Payload(FormValues("  ", "", None), false, None).name == ""
    ensures MockServer.NameMissing(ReceivedBody(CreateEmployee(Payload(FormValues("  ", "", None), false, None)).body.value))
  {
    var v := FormValues("  ", "", None);
    FormValidAsWrittenIff(v);
    assert AllWhitespace(v.name);
    FormValidIff(v);
  }

  /** patchValue(employee): each control whose key the record carries takes its value. */
  function Patched(v: FormValues, e: Employee): (w: FormValues)
    ensures w.name == e.name
    ensures w.position == (if e.position.Some? then e.position.value else v.position)
    ensures w.salary == (if e.salary.Some? then e.salary else v.salary)
  {
    FormValues(e.name, e.position.GetOr(v.position), if e.salary.Some? then e.salary else v.salary)
  }

  /** The request onSubmit issues: an update of the edited id, or a create. */
  function SubmitRequest(v: FormValues, isEditMode: bool, employeeId: Option<int>): (r: Request)
    requires isEditMode ==> employeeId.Some?
    ensures r.verb == (if isEditMode then PUT else POST)
    ensures r.body.Some? && r.body.value.name == Trim(v.name)
  {
    var payload := Payload(v, isEditMode, employeeId);
    if isEditMode then UpdateEmployee(employeeId.value, payload) else CreateEmployee(payload)
  }

  /** Edit mode updates the edited record under its own id; create mode posts a record without id. */
  lemma SubmitRequestTargets(v: FormValues, isEditMode: bool, employeeId: Option<int>)
    requires isEditMode ==> employeeId.Some?
    ensures var r := SubmitRequest(v, isEditMode, employeeId);
            && (isEditMode ==> r.verb == PUT && ParseInt(IdSegment(r.url)) == employeeId
                               && r.body.value.id == employeeId)
            && (!isEditMode ==> r.verb == POST && r.url == ApiUrl && r.body.value.id.None?)
            && r.body.value.(id := None) == Payload(v, isEditMode, employeeId).(id := None)
  {
    if isEditMode {
      IdUrlRoundTrip(employeeId.value);
    }
  }

  class EmployeeFormComponent {
    var values: FormValues
    var touched: set<Field>
    var isEditMode: bool
    var employeeId: Option<int>
    var loading: bool
    var error: Option<string>
    /** The requests issued through the service, oldest first. */
    var requests: seq<Request>
    /** The routes passed to router.navigate, oldest first. */
    var navigations: seq<string>

    /** Edit mode is only ever entered together with an id. */
    ghost predicate Valid()
      reads this
    {
      isEditMode ==> employeeId.Some?
    }

    /** The component as constructed: empty controls in create mode. */
    constructor ()
      ensures Valid()
      ensures values == FormValues("", "", None) && touched == {}
      ensures !isEditMode && employeeId == None && !loading && error == None
      ensures requests == [] && navigations == []
    {
      values := FormValues("", "", None);
      touched := {};
      isEditMode := false;
      employeeId := None;
      loading := false;
      error := None;
      requests := [];
      navigations := [];
    }

    /** What loadEmployee does for the id `id`, relative to the state before it. */
    twostate predicate LoadedFor(id: Option<int>, fetched: Reply<Employee>)
      reads this
    {
      && touched == old(touched) && navigations == old(navigations)
      && if id.None? || id.value == 0 then
           values == old(values) && loading == old(loading) && error == old(error)
           && requests == old(requests)
         else
           && requests == old(requests) + [GetEmployee(id.value)]
           && match fetched
              case Pending => loading && values == old(values) && error == old(error)
              case Ok(e) => !loading && values == Patched(old(values), e) && error == old(error)
              case Failed(_) => !loading && values == old(values) && error == Some(LoadErrorMessage)
    }

    /** ngOnInit: an id route parameter enters edit mode for that id and loads the record. */
    method NgOnInit(routeId: Option<int>, fetched: Reply<Employee>)
      requires Valid()
      modifies this
      ensures Valid()
      ensures routeId.None? ==> unchanged(this)
      ensures routeId.Some? ==> isEditMode && employeeId == routeId && LoadedFor(routeId, fetched)
    {
      if routeId.Some? {
        isEditMode := true;
        employeeId := routeId;
        LoadEmployee(fetched);
      }
    }

    /** loadEmployee: nothing without a non-zero id; otherwise fetch the record and patch the controls. */
    method LoadEmployee(fetched: Reply<Employee>)
      modifies this
      ensures isEditMode == old(isEditMode) && employeeId == old(employeeId)
      ensures LoadedFor(employeeId, fetched)
    {
      if employeeId.Some? && employeeId.value != 0 {
        loading := true;
        requests := requests + [GetEmployee(employeeId.value)];
        match fetched
        case Pending =>
        case Ok(e) =>
          values := Patched(values, e);
          loading := false;
        case Failed(_) =>
          error := Some(LoadErrorMessage);
          loading := false;
      }
    }

    /**
     * What the valid branch of onSubmit does with `request`, relative to the state
     * before it: the request is issued; success navigates to the list, failure
     * shows the mode's error and stops loading; the controls stay as they are.
     */
    twostate predicate SubmittedWith(request: Request, reply: Reply<()>)
      reads this
    {
      && values == old(values) && isEditMode == old(isEditMode) && employeeId == old(employeeId)
      && touched == old(touched)
      && requests == old(requests) + [request]
      && (!reply.Failed? ==> loading && error.None?)
      && (reply.Ok? ==> navigations == old(navigations) + [ListRoute])
      && (!reply.Ok? ==> navigations == old(navigations))
      && (reply.Failed? ==>
            !loading && error == Some(if isEditMode then UpdateErrorMessage else CreateErrorMessage))
    }

    /** What the invalid branch of onSubmit does: every control is touched and nothing else changes. */
    twostate predicate TouchedAllOnly()
      reads this
    {
      && values == old(values) && isEditMode == old(isEditMode) && employeeId == old(employeeId)
      && touched == old(touched) + {Name, Position, Salary}
      && requests == old(requests) && navigations == old(navigations)
      && loading == old(loading) && error == old(error)
    }

    /**
     * onSubmit: an invalid form only marks every control touched; a valid one
     * issues the create or update for the current mode and then navigates to
     * the list on success, or shows the mode's error and keeps the values on failure.
     */
    method OnSubmit(reply: Reply<()>)
      requires Valid()
      modifies this
      ensures Valid()
      ensures if FormValidAsWritten(old(values))
              then SubmittedWith(SubmitRequest(old(values), old(isEditMode), old(employeeId)), reply)
              else TouchedAllOnly()
    {
      if FormValidAsWritten(values) {
        Submit(SubmitRequest(values, isEditMode, employeeId), reply);
        assert FormValidAsWritten(old(values));
      } else {
        MarkAllTouched();
        assert !FormValidAsWritten(old(values));
      }
    }

    /** The valid branch of onSubmit, issuing `request`. */
    method Submit(request: Request, reply: Reply<()>)
      modifies this`loading, this`error, this`requests, this`navigations
      ensures SubmittedWith(request, reply)
    {
      loading := true;
      error := None;
      requests := requests + [request];
      match reply
      case Pending =>
      case Ok(_) =>
        navigations := navigations + [ListRoute];
      case Failed(_) =>
        error := Some(if isEditMode then UpdateErrorMessage else CreateErrorMessage);
        loading := false;
    }

    /** `Object.keys(controls).forEach(key => get(key).markAsTouched())` */
    method MarkAllTouched()
      modifies this`touched
      ensures touched == old(touched) + {Name, Position, Salary}
    {
      for i := 0 to |Controls|
        invariant touched == old(touched) + set j | 0 <= j < i :: Controls[j]
      {
        touched := touched + {Controls[i]};
      }
      assert (set j | 0 <= j < |Controls| :: Controls[j]) == {Name, Position, Salary} by {
        assert Controls[0] == Name && Controls[1] == Position && Controls[2] == Salary;
      }
    }

    /** onCancel: back to the list. */
    method OnCancel()
      modifies this`navigations
      ensures navigations == old(navigations) + [ListRoute]
    {
      navigations := navigations + [ListRoute];
    }
  }
}

=== FILE: employee_list.dfy ===
/**
 * The employee list view: the loading, error and employees fields around
 * loading the list and deleting one employee after a confirmation.
 */
module EmployeeList {
  import opened Wrappers
  import opened EmployeeService

  const LoadErrorMessage := "Error al cargar los empleados"
  const DeleteErrorMessage := "Error al eliminar el empleado"

  class EmployeeListComponent {
    var employees: seq<Employee>
    var loading: bool
    var error: Option<string>
    /** The HTTP requests issued so far, oldest first. */
    var requests: seq<Request>

    /** An empty list, nothing loading and no error. */
    constructor ()
      ensures employees == [] && !loading && error == None && requests == []
    {
      employees := [];
      loading := false;
      error := None;
      requests := [];
    }

    /**
     * The fields after a list fetch answered by `fetched`, where `before` is the
     * list shown when the fetch began: still loading with no error, the fetched
     * list, or the load error over the old list.
     */
    predicate ShowsLoad(fetched: Reply<seq<Employee>>, before: seq<Employee>)
      reads this
    {
      match fetched
      case Pending => loading && error == None && employees == before
      case Ok(es) => !loading && error == None && employees == es
      case Failed(_) => !loading && error == Some(LoadErrorMessage) && employees == before
    }

    /** loadEmployees: clear the error, start loading and fetch the whole list. */
    method LoadEmployees(fetched: Reply<seq<Employee>>)
      modifies this
      ensures requests == old(requests) + [GetEmployees()]
      ensures ShowsLoad(fetched, old(employees))
    {
      loading := true;
      error := None;
      requests := requests + [GetEmployees()];
      match fetched
      case Pending =>
      case Ok(es) =>
        employees := es;
        loading := false;
      case Failed(_) =>
        error := Some(LoadErrorMessage);
        loading := false;
    }

    /**
     * deleteEmployee: nothing at all unless the user confirms; then delete `id`
     * on the server, reload the whole list on success, or show the delete
     * error and leave the list and the loading flag alone on failure.
     */
    method DeleteEmployee(id: int, confirmed: bool, deleted: Reply<()>, reloaded: Reply<seq<Employee>>)
      modifies this
      ensures !confirmed ==> unchanged(this)
      ensures confirmed && deleted.Ok? ==>
                && requests == old(requests) + [EmployeeService.DeleteEmployee(id), GetEmployees()]
                && ShowsLoad(reloaded, old(employees))
      ensures confirmed && deleted.Failed? ==>
                && requests == old(requests) + [EmployeeService.DeleteEmployee(id)]
                && error == Some(DeleteErrorMessage)
                && employees == old(employees) && loading == old(loading)
      ensures confirmed && deleted.Pending? ==>
                && requests == old(requests) + [EmployeeService.DeleteEmployee(id)]
                && error == old(error) && employees == old(employees) && loading == old(loading)
      ensures employees == old(employees) || (reloaded.Ok? && employees == reloaded.value)
    {
      if confirmed {
        requests := requests + [EmployeeService.DeleteEmployee(id)];
        match deleted
        case Pending =>
        case Ok(_) =>
          LoadEmployees(reloaded);
        case Failed(_) =>
          error := Some(DeleteErrorMessage);
      }
    }
  }
}

=== FILE: employee_service.dfy ===
/**
 * The client's data-access layer. Each operation is the HTTP request it
 * issues (verb, URL, JSON body); the reply comes back through catchError,
 * which turns every HttpErrorResponse into one message string.
 */
module EmployeeService {
  import opened Wrappers
  import opened Text
  import MockServer

  /** The Employee interface: only the name is required. */
  datatype Employee = Employee(id: Option<int>, name: string, position: Option<string>, salary: Option<int>)

  datatype Verb = GET | POST | PUT | DELETE

  /** A request as HttpClient sends it; the JSON headers are the same on every request. */
  datatype Request = Request(verb: Verb, url: string, body: Option<Employee>)

  const ApiUrl := "http://localhost:5160/employees"

  /** `${apiUrl}/${id}` */
  function IdUrl(id: int): string {
    ApiUrl + "/" + Show(id)
  }

  /** The part of a URL after `apiUrl + "/"`: the path segment the server reads the id from. */
  function IdSegment(url: string): string
    requires |url| > |ApiUrl|
  {
    url[|ApiUrl| + 1..]
  }

  function GetEmployees(): Request {
    Request(GET, ApiUrl, None)
  }

  function GetEmployee(id: int): Request {
    Request(GET, IdUrl(id), None)
  }

  /** createEmployee: the body is the employee with its id left out; every other field is kept. */
  function CreateEmployee(e: Employee): (r: Request)
    ensures r.verb == POST && r.url == ApiUrl && r.body.Some?
    ensures r.body.value.id.None?
    ensures r.body.value.(id := e.id) == e
  {
    Request(POST, ApiUrl, Some(e.(id := None)))
  }

  /** updateEmployee: the body is the employee with its id forced to the path id. */
  function UpdateEmployee(id: int, e: Employee): (r: Request)
    ensures r.verb == PUT && r.url == IdUrl(id) && r.body.Some?
    ensures r.body.value.id == Some(id)
    ensures r.body.value.(id := e.id) == e
  {
    Request(PUT, IdUrl(id), Some(e.(id := Some(id))))
  }

  function DeleteEmployee(id: int): Request {
    Request(DELETE, IdUrl(id), None)
  }

  /** The fields of a sent employee that the server's handlers read (`const { name, position, salary } = req.body`). */
  function ReceivedBody(e: Employee): MockServer.Body {
    MockServer.Body(Some(e.name), e.position, e.salary)
  }

  /** The id a client puts into a URL is the id the server's parseInt reads back from it. */
  lemma IdUrlRoundTrip(id: int)
    ensures |IdUrl(id)| > |ApiUrl| && IdUrl(id)[..|ApiUrl| + 1] == ApiUrl + "/"
    ensures ParseInt(IdSegment(IdUrl(id))) == Some(id)
  {
    assert IdSegment(IdUrl(id)) == Show(id) + [];
    ParseIntOfShow(id, []);
  }

  /** Whatever id the caller left in the record, createEmployee sends the same request. */
  lemma CreateIgnoresClientId(e: Employee, other: Option<int>)
    ensures CreateEmployee(e.(id := other)) == CreateEmployee(e)
  {
  }

  /** In an update, the id in the body and the id in the path always agree. */
  lemma UpdatePathAndBodyAgree(id: int, e: Employee)
    ensures ParseInt(IdSegment(UpdateEmployee(id, e).url)) == UpdateEmployee(id, e).body.value.id
  {
    IdUrlRoundTrip(id);
  }

  /** Each operation targets the base URL or `base/id`. */
  lemma OperationTargets(id: int, e: Employee)
    ensures GetEmployees().url == ApiUrl && CreateEmployee(e).url == ApiUrl
    ensures GetEmployee(id).url == IdUrl(id) && UpdateEmployee(id, e).url == IdUrl(id)
    ensures DeleteEmployee(id).url == IdUrl(id)
    ensures GetEmployees().verb == GET && GetEmployee(id).verb == GET && DeleteEmployee(id).verb == DELETE
  {
  }

  /** What `error.error` holds in an HttpErrorResponse. */
  datatype ErrorDetail =
    | ErrorEvent(message: string)   // an ErrorEvent raised in the browser
    | TextBody(text: string)        // a response body that is a string
    | OtherBody                     // a JSON object, null or nothing

  datatype HttpError = HttpError(status: int, statusText: string, detail: ErrorDetail)

  const ClientPrefix := "Error del cliente: "
  const ServerPrefix := "Error del servidor: "

  predicate StartsWith(s: string, prefix: string) {
    |prefix| <= |s| && s[..|prefix|] == prefix
  }

  predicate EndsWith(s: string, suffix: string) {
    |suffix| <= |s| && s[|s| - |suffix|..] == suffix
  }

  /** A string body is appended when it is truthy, i.e. not empty. */
  predicate HasBodyText(e: HttpError) {
    e.detail.TextBody? && e.detail.text != ""
  }

  /** The part of a server-side message after `status - statusText`. */
  function BodySuffix(e: HttpError): string {
    if HasBodyText(e) then " - " + e.detail.text else ""
  }

  /** The part of a server-side message before any body text: the status and its text. */
  function ServerHead(e: HttpError): string {
    ServerPrefix + Show(e.status) + " - " + e.statusText
  }

  /** handleError: the one message every failed operation reports. */
  function HandleError(e: HttpError): (m: string)
    ensures StartsWith(m, ClientPrefix) <==> e.detail.ErrorEvent?
    ensures e.detail.ErrorEvent? ==> m[|ClientPrefix|..] == e.detail.message
    ensures !e.detail.ErrorEvent? ==>
              StartsWith(m, ServerPrefix) && ParseInt(m[|ServerPrefix|..]) == Some(e.status)
    ensures HasBodyText(e) ==> EndsWith(m, " - " + e.detail.text)
    ensures !e.detail.ErrorEvent? && !HasBodyText(e) ==> EndsWith(m, " - " + e.statusText)
    ensures !e.detail.ErrorEvent? ==> StartsWith(m, ServerHead(e)) && m[|ServerHead(e)|..] == BodySuffix(e)
  {
    if e.detail.ErrorEvent? then
      ClientPrefix + e.detail.message
    else
      var tail := " - " + e.statusText + BodySuffix(e);
      var m := ServerPrefix + Show(e.status) + tail;
      ServerMessageFacts(e, tail, m);
      m
  }

  lemma ServerMessageFacts(e: HttpError, tail: string, m: string)
    requires !e.detail.ErrorEvent?
    requires tail == " - " + e.statusText + BodySuffix(e)
    requires m == ServerPrefix + Show(e.status) + tail
    ensures !StartsWith(m, ClientPrefix)
    ensures StartsWith(m, ServerPrefix) && ParseInt(m[|ServerPrefix|..]) == Some(e.status)
    ensures HasBodyText(e) ==> EndsWith(m, " - " + e.detail.text)
    ensures !HasBodyText(e) ==> EndsWith(m, " - " + e.statusText)
    ensures StartsWith(m, ServerHead(e)) && m[|ServerHead(e)|..] == BodySuffix(e)
  {
    ServerPrefixFacts(Show(e.status), tail);
    ParseIntOfShow(e.status, tail);
    MessageLayout(ServerPrefix, Show(e.status), e.statusText, BodySuffix(e));
    if HasBodyText(e) {
      ConcatEnds(" - " + e.statusText, " - " + e.detail.text);
      EndsWithTrans(m, tail, " - " + e.detail.text);
    }
  }

  /** How a message `p + d + " - " + t + b` splits at its head and its tail. */
  lemma MessageLayout(p: string, d: string, t: string, b: string)
    ensures var m := p + d + (" - " + t + b);
            && StartsWith(m, p + d + " - " + t) && m[|p + d + " - " + t|..] == b
            && EndsWith(m, " - " + t + b)
            && (b == "" ==> EndsWith(m, " - " + t))
  {
    var m := p + d + (" - " + t + b);
    assert m == (p + d + " - " + t) + b;
    ConcatEnds(p + d + " - " + t, b);
    ConcatEnds(p + d, " - " + t + b);
    if b == "" {
      assert " - " + t + b == " - " + t;
    }
  }

  lemma EndsWithTrans(s: string, t: string, u: string)
    requires EndsWith(s, t) && EndsWith(t, u)
    ensures EndsWith(s, u)
  {
    assert s[|s| - |u|..] == s[|s| - |t|..][|t| - |u|..];
  }

  lemma ServerPrefixFacts(digits: string, tail: string)
    ensures StartsWith(ServerPrefix + digits + tail, ServerPrefix)
    ensures !StartsWith(ServerPrefix + digits + tail, ClientPrefix)
    ensures (ServerPrefix + digits + tail)[|ServerPrefix|..] == digits + tail
  {
    var m := ServerPrefix + digits + tail;
    assert m[..|ClientPrefix|][10] != ClientPrefix[10];
  }

  lemma ConcatEnds(a: string, b: string)
    ensures StartsWith(a + b, a) && (a + b)[|a|..] == b
    ensures EndsWith(a + b, b)
  {
  }

  /** What an operation delivers to its subscriber: nothing yet, a value, or a message. */
  datatype Reply<+T> = Pending | Ok(value: T) | Failed(message: string)

  /** What HttpClient delivers: nothing yet, a value, or an HttpErrorResponse. */
  datatype HttpReply<+T> = HttpPending | HttpOk(value: T) | HttpFailed(error: HttpError)

  /** `.pipe(catchError(this.handleError))`: values pass through, every failure becomes its message. */
  function CatchError<T>(r: HttpReply<T>): (d: Reply<T>)
    ensures d.Pending? <==> r.HttpPending?
    ensures d.Ok? <==> r.HttpOk?
    ensures d.Ok? ==> d.value == r.value
    ensures d.Failed? ==> d.message == HandleError(r.error)
  {
    match r
    case HttpPending => Pending
    case HttpOk(v) => Ok(v)
    case HttpFailed(e) => Failed(HandleError(e))
  }
}

=== FILE: mock_server.dfy ===
/**
 * The mock REST backend: an ordered in-memory list of employee records and a
 * counter for the next id, behind five route handlers (list, get, create,
 * update, delete). A handler is a method of the store that returns the HTTP
 * status and the JSON body it would send.
 */
module MockServer {
  import opened Wrappers
  import opened Text

  /** A stored employee: every field present, the id assigned by the server. */
  datatype Record = Record(id: int, name: string, position: string, salary: int)

  /** The fields of a request body the handlers read; each may be absent. */
  datatype Body = Body(name: Option<string>, position: Option<string>, salary: Option<int>)

  /** The JSON a handler answers with. */
  datatype Payload =
    | One(employee: Record)
    | All(employees: seq<Record>)
    | Removed(message: string, employee: Record)
    | Problem(error: string)

  datatype Response = Response(status: int, payload: Payload)

  const NotFoundMessage := "Empleado no encontrado"
  const NameRequiredMessage := "El nombre es requerido"
  const DeletedMessage := "Empleado eliminado correctamente"

  /** The records the server starts with. */
  function Seed(): seq<Record> {
    [ Record(1, "Juan Pérez", "Desarrollador Frontend", 50000),
      Record(2, "María García", "Desarrolladora Backend", 55000),
      Record(3, "Carlos López", "DevOps Engineer", 60000),
      Record(4, "Ana Martínez", "UI/UX Designer", 45000),
      Record(5, "Luis Rodríguez", "Project Manager", 65000) ]
  }

  const SeedNextId := 6

  /** `!name`: the name is absent or the empty string. */
  predicate NameMissing(b: Body) {
    b.name.None? || b.name.value == ""
  }

  /** The record a create or an update stores under `id`: `position || ''`, `salary || 0`. */
  function Stored(id: int, b: Body): Record
    requires !NameMissing(b)
  {
    Record(id, b.name.value, b.position.GetOr(""), b.salary.GetOr(0))
  }

  /** `findIndex(emp => emp.id === id)`: the first position holding `id`, None for -1. */
  function IndexOf(s: seq<Record>, id: int): (r: Option<nat>)
    ensures r.Some? ==> r.value < |s| && s[r.value].id == id
    ensures r.Some? ==> forall j :: 0 <= j < r.value ==> s[j].id != id
    ensures r.None? <==> forall j :: 0 <= j < |s| ==> s[j].id != id
  {
    if |s| == 0 then None
    else if s[0].id == id then Some(0)
    else match IndexOf(s[1..], id)
      case None => None
      case Some(i) => Some(i + 1)
  }

  /** The position a path segment designates: `parseInt` of it, then findIndex; NaN matches nothing. */
  function Lookup(s: seq<Record>, segment: string): (r: Option<nat>)
    ensures r.Some? ==> r.value < |s| && Some(s[r.value].id) == ParseInt(segment)
    ensures r.None? <==> forall j :: 0 <= j < |s| ==> Some(s[j].id) != ParseInt(segment)
  {
    match ParseInt(segment)
    case None => None
    case Some(id) => IndexOf(s, id)
  }

  /** Ids strictly increase along the list, so each id occurs at most once. */
  ghost predicate IdsIncreasing(s: seq<Record>) {
    forall i, j :: 0 <= i < j < |s| ==> s[i].id < s[j].id
  }

  ghost predicate NamesPresent(s: seq<Record>) {
    forall i :: 0 <= i < |s| ==> s[i].name != ""
  }

  /** In a list with increasing ids, the record found for an id is the only one with it. */
  lemma IncreasingIdsAreUnique(s: seq<Record>, i: nat, j: nat)
    requires IdsIncreasing(s)
    requires i < |s| && j < |s| && s[i].id == s[j].id
    ensures i == j
  {
  }

  /** Removing one element keeps the ids increasing, with the others in their order. */
  lemma {:induction false} RemoveKeepsIncreasing(s: seq<Record>, k: nat)
    requires IdsIncreasing(s) && k < |s|
    ensures IdsIncreasing(s[..k] + s[k + 1..])
  {
    var t := s[..k] + s[k + 1..];
    forall i, j | 0 <= i < j < |t|
      ensures t[i].id < t[j].id
    {
      var i' := if i < k then i else i + 1;
      var j' := if j < k then j else j + 1;
      assert t[i] == s[i'] && t[j] == s[j'];
    }
  }

  /** A record appended above every id already present is what findIndex finds for its id. */
  lemma FoundAtEnd(s: seq<Record>, r: Record)
    requires forall j :: 0 <= j < |s| ==> s[j].id < r.id
    ensures IndexOf(s + [r], r.id) == Some(|s|)
  {
    var t := s + [r];
    assert t[|s|] == r;
    assert forall j :: 0 <= j < |s| ==> t[j] == s[j];
  }

  class Store {
    var employees: seq<Record>
    var nextId: int
    /** Every id the store has ever handed out, including those of deleted records. */
    ghost var issued: set<int>

    ghost predicate Valid()
      reads this
    {
      && IdsIncreasing(employees)
      && NamesPresent(employees)
      && (forall i :: 0 <= i < |employees| ==> employees[i].id in issued)
      && (forall x :: x in issued ==> x < nextId)
    }

    /** The module state at start-up: the seed list and `nextId = 6`. */
    constructor ()
      ensures Valid()
      ensures employees == Seed() && nextId == SeedNextId
    {
      employees := Seed();
      nextId := SeedNextId;
      issued := {1, 2, 3, 4, 5};
    }

    /** GET /employees: the whole list, in stored order. */
    method List() returns (resp: Response)
      ensures resp.status == 200
      ensures resp.payload == All(employees)
    {
      resp := Response(200, All(employees));
    }

    /** GET /employees/:id: the record with the parsed id, or 404. */
    method Get(segment: string) returns (resp: Response)
      ensures Lookup(employees, segment).Some? ==>
                resp == Response(200, One(employees[Lookup(employees, segment).value]))
      ensures Lookup(employees, segment).None? ==>
                resp == Response(404, Problem(NotFoundMessage))
    {
      match Lookup(employees, segment)
      case Some(i) =>
        resp := Response(200, One(employees[i]));
      case None =>
        resp := Response(404, Problem(NotFoundMessage));
    }

    /** POST /employees: 400 without a name; otherwise append a record under the next id, 201. */
    method Create(b: Body) returns (resp: Response)
      requires Valid()
      modifies this
      ensures Valid()
      ensures NameMissing(b) ==>
                && resp == Response(400, Problem(NameRequiredMessage))
                && employees == old(employees) && nextId == old(nextId) && issued == old(issued)
      ensures !NameMissing(b) ==>
                var r := Record(old(nextId), b.name.value, b.position.GetOr(""), b.salary.GetOr(0));
                && resp == Response(201, One(r))
                && employees == old(employees) + [r]
                && nextId == old(nextId) + 1
                && r.id !in old(issued) && issued == old(issued) + {r.id}
    {
      if NameMissing(b) {
        return Response(400, Problem(NameRequiredMessage));
      }
      var r := Stored(nextId, b);
      nextId := nextId + 1;
      issued := issued + {r.id};
      employees := employees + [r];
      resp := Response(201, One(r));
    }

    /**
     * PUT /employees/:id: 404 when no record has the id (checked before the
     * name), 400 without a name; otherwise the record is replaced in place.
     */
    method Update(segment: string, b: Body) returns (resp: Response)
      requires Valid()
      modifies this
      ensures Valid() && nextId == old(nextId) && issued == old(issued)
      ensures Lookup(old(employees), segment).None? ==>
                resp == Response(404, Problem(NotFoundMessage)) && employees == old(employees)
      ensures Lookup(old(employees), segment).Some? && NameMissing(b) ==>
                resp == Response(400, Problem(NameRequiredMessage)) && employees == old(employees)
      ensures Lookup(old(employees), segment).Some? && !NameMissing(b) ==>
                var k := Lookup(old(employees), segment).value;
                var r := Record(ParseInt(segment).value, b.name.value, b.position.GetOr(""), b.salary.GetOr(0));
                && r.id == old(employees)[k].id
                && employees == old(employees)[k := r]
                && resp == Response(200, One(r))
    {
      match Lookup(employees, segment)
      case None =>
        resp := Response(404, Problem(NotFoundMessage));
      case Some(k) =>
        if NameMissing(b) {
          resp := Response(400, Problem(NameRequiredMessage));
        } else {
          var r := Stored(ParseInt(segment).value, b);
          employees := employees[k := r];
          resp := Response(200, One(r));
        }
    }

    /** DELETE /employees/:id: 404 when absent; otherwise splice the record out and return it. */
    method Delete(segment: string) returns (resp: Response)
      requires Valid()
      modifies this
      ensures Valid() && nextId == old(nextId) && issued == old(issued)
      ensures Lookup(old(employees), segment).None? ==>
                resp == Response(404, Problem(NotFoundMessage)) && employees == old(employees)
      ensures Lookup(old(employees), segment).Some? ==>
                var k := Lookup(old(employees), segment).value;
                && employees == old(employees)[..k] + old(employees)[k + 1..]
                && resp == Response(200, Removed(DeletedMessage, old(employees)[k]))
    {
      match Lookup(employees, segment)
      case None =>
        resp := Response(404, Problem(NotFoundMessage));
      case Some(k) =>
        var gone := employees[k];
        RemoveKeepsIncreasing(employees, k);
        employees := employees[..k] + employees[k + 1..];
        resp := Response(200, Removed(DeletedMessage, gone));
    }
  }

  /** A record just created is what GET /employees/<its id> returns. */
  method CreateThenGet(s: Store, b: Body) returns (created: Response, fetched: Response)
    requires s.Valid() && !NameMissing(b)
    modifies s
    ensures created.status == 201 && created.payload.One?
    ensures fetched == Response(200, created.payload)
  {
    created := s.Create(b);
    var r := created.payload.employee;
    ParseIntOfShow(r.id, []);
    assert Show(r.id) + [] == Show(r.id);
    FoundAtEnd(old(s.employees), r);
    fetched := s.Get(Show(r.id));
  }

  /** Once deleted, a record can no longer be fetched, and its id is never handed out again. */
  method DeleteThenGet(s: Store, segment: string, b: Body) returns (deleted: Response, fetched: Response, created: Response)
    requires s.Valid()
    modifies s
    ensures deleted.status == 200 ==> deleted.payload.Removed? && fetched.status == 404
    ensures created.status == 201 ==> created.payload.One?
    ensures deleted.status == 200 && created.status == 201 ==>
              created.payload.employee.id != deleted.payload.employee.id
  {
    deleted := s.Delete(segment);
    if deleted.status == 200 {
      var k := Lookup(old(s.employees), segment).value;
      forall j | 0 <= j < |s.employees| ensures Some(s.employees[j].id) != ParseInt(segment) {
        var j' := if j < k then j else j + 1;
        assert s.employees[j] == old(s.employees)[j'];
      }
    }
    fetched := s.Get(segment);
    created := s.Create(b);
  }
}

=== FILE: text.dfy ===
/**
 * The string operations the application relies on: JavaScript's
 * String.prototype.trim, the decimal rendering of a number inside a template
 * literal, parseInt, which the mock server applies to a path segment, and a
 * string's `length`, counted in UTF-16 code units, which minLength compares.
 */
module Text {
  import opened Wrappers

  /**
   * ECMAScript's WhiteSpace and LineTerminator characters, the set both trim
   * and parseInt skip: tab, line feed, vertical tab, form feed, carriage
   * return, the space separators (space, no-break space, U+1680, U+2000 to
   * U+200A, U+202F, U+205F, U+3000), the line and paragraph separators and the
   * byte-order mark.
   */
  predicate IsWhitespace(c: char) {
    || ('\t' <= c <= '\r') || c == ' ' || c == '\U{A0}' || c == '\U{1680}'
    || ('\U{2000}' <= c <= '\U{200A}') || c == '\U{2028}' || c == '\U{2029}'
    || c == '\U{202F}' || c == '\U{205F}' || c == '\U{3000}' || c == '\U{FEFF}'
  }

  predicate AllWhitespace(s: string) {
    forall k :: 0 <= k < |s| ==> IsWhitespace(s[k])
  }

  /** The end of the run of white space in `s` that starts at `i`. */
  function SkipWhitespace(s: string, i: nat): (n: nat)
    requires i <= |s|
    ensures i <= n <= |s|
    ensures forall k :: i <= k < n ==> IsWhitespace(s[k])
    ensures n == |s| || !IsWhitespace(s[n])
    decreases |s| - i
  {
    if i < |s| && IsWhitespace(s[i]) then SkipWhitespace(s, i + 1) else i
  }

  /** The start of the run of white space in `s` that ends at `j`, stopping at `lo`. */
  function SkipWhitespaceBack(s: string, lo: nat, j: nat): (n: nat)
    requires lo <= j <= |s|
    ensures lo <= n <= j
    ensures forall k :: n <= k < j ==> IsWhitespace(s[k])
    ensures n == lo || !IsWhitespace(s[n - 1])
    decreases j
  {
    if j > lo && IsWhitespace(s[j - 1]) then SkipWhitespaceBack(s, lo, j - 1) else j
  }

  /** `s` without its leading white space, as parseInt skips it. */
  function TrimStart(s: string): (r: string)
    ensures |r| <= |s| && r == s[|s| - |r|..]
    ensures forall k :: 0 <= k < |s| - |r| ==> IsWhitespace(s[k])
    ensures r == [] || !IsWhitespace(r[0])
  {
    s[SkipWhitespace(s, 0)..]
  }

  /** String.prototype.trim: white space removed from both ends. */
  function Trim(s: string): (r: string)
    ensures r == [] || (!IsWhitespace(r[0]) && !IsWhitespace(r[|r| - 1]))
    ensures r == [] <==> AllWhitespace(s)
  {
    var i := SkipWhitespace(s, 0);
    s[i..SkipWhitespaceBack(s, i, |s|)]
  }

  /** Trimming what is already trimmed changes nothing. */
  lemma TrimIdempotent(s: string)
    ensures Trim(Trim(s)) == Trim(s)
  {
    var r := Trim(s);
    assert SkipWhitespace(r, 0) == 0;
    assert SkipWhitespaceBack(r, 0, |r|) == |r|;
  }

  /** Trim keeps a contiguous piece of its input, dropping only white space around it. */
  lemma TrimIsInfix(s: string)
    ensures exists i, j ::
              && 0 <= i <= j <= |s| && Trim(s) == s[i..j]
              && (forall k :: 0 <= k < i ==> IsWhitespace(s[k]))
              && (forall k :: j <= k < |s| ==> IsWhitespace(s[k]))
  {
    var i := SkipWhitespace(s, 0);
    var j := SkipWhitespaceBack(s, i, |s|);
    assert Trim(s) == s[i..j];
  }

  predicate IsDigit(c: char) {
    '0' <= c <= '9'
  }

  /** How many UTF-16 code units a character takes: two from U+10000 up (a surrogate pair). */
  function CodeUnits(c: char): (n: nat)
    ensures n == 1 || n == 2
    ensures n == 2 <==> c as int >= 0x1_0000
  {
    if c as int < 0x1_0000 then 1 else 2
  }

  /**
   * JavaScript's `length` of a string, which counts UTF-16 code units: it is
   * zero only for the empty string and lies between the number of characters
   * and twice that.
   */
  function Utf16Length(s: string): (n: nat)
    ensures |s| <= n <= 2 * |s|
    ensures n == 0 <==> s == []
    ensures |s| == 1 ==> n == CodeUnits(s[0])
  {
    if |s| == 0 then 0 else Utf16Length(s[..|s| - 1]) + CodeUnits(s[|s| - 1])
  }

  /** The JavaScript length of a concatenation is the sum of the parts' lengths. */
  lemma {:induction false} Utf16LengthAppend(a: string, b: string)
    ensures Utf16Length(a + b) == Utf16Length(a) + Utf16Length(b)
    decreases |b|
  {
    if |b| == 0 {
      assert a + b == a;
    } else {
      var c := b[..|b| - 1];
      assert (a + b)[..|a + b| - 1] == a + c;
      Utf16LengthAppend(a, c);
    }
  }

  /** A string of characters below U+10000 is as long in JavaScript as in characters. */
  lemma {:induction false} Utf16LengthOfBasicPlane(s: string)
    requires forall k :: 0 <= k < |s| ==> s[k] as int < 0x1_0000
    ensures Utf16Length(s) == |s|
  {
    if |s| > 0 {
      var p := s[..|s| - 1];
      assert forall k :: 0 <= k < |p| ==> p[k] == s[k];
      Utf16LengthOfBasicPlane(p);
    }
  }

  predicate AllDigits(s: string) {
    forall k :: 0 <= k < |s| ==> IsDigit(s[k])
  }

  function DigitChar(d: nat): (c: char)
    requires d < 10
    ensures IsDigit(c)
  {
    (48 + d) as char
  }

  function DigitValue(c: char): (d: nat)
    requires IsDigit(c)
    ensures d < 10 && DigitChar(d) == c
  {
    (c as int) - 48
  }

  /** The decimal digits of a natural number, most significant first, without leading zeros. */
  function ShowNat(n: nat): (s: string)
    ensures |s| > 0 && AllDigits(s)
    ensures s[0] == '0' ==> n == 0
  {
    if n < 10 then [DigitChar(n)] else ShowNat(n / 10) + [DigitChar(n % 10)]
  }

  /** A number rendered by a template literal: an optional minus sign and its digits. */
  function Show(n: int): (s: string)
    ensures |s| > 0
    ensures n >= 0 ==> AllDigits(s)
    ensures n < 0 ==> s[0] == '-' && AllDigits(s[1..])
    ensures n > 0 ==> s[0] != '0'
    ensures n < 0 ==> |s| > 1 && s[1] != '0'
  {
    if n < 0 then "-" + ShowNat(-n) else ShowNat(n)
  }

  /** How many digits `s` starts with. */
  function DigitRun(s: string): (k: nat)
    ensures k <= |s| && AllDigits(s[..k])
    ensures k < |s| ==> !IsDigit(s[k])
  {
    if |s| > 0 && IsDigit(s[0]) then 1 + DigitRun(s[1..]) else 0
  }

  /** The value of a string of decimal digits, read most significant first. */
  function DigitsValue(ds: string): nat
    requires AllDigits(ds)
  {
    if |ds| == 0 then 0 else DigitsValue(ds[..|ds| - 1]) * 10 + DigitValue(ds[|ds| - 1])
  }

  /** The longest run of digits `t` starts with, read as a number; None when there is none. */
  function ReadDigits(t: string): Option<nat> {
    var k := DigitRun(t);
    if k == 0 then None else Some(DigitsValue(t[..k]))
  }

  /**
   * parseInt on a decimal string: leading white space is skipped, one sign is
   * accepted, and the longest run of digits that follows is read; no digit at
   * all gives NaN, here None.
   */
  function ParseInt(s: string): (r: Option<int>)
    ensures AllWhitespace(s) ==> r.None?
    ensures r.Some? ==> |TrimStart(s)| > 0 && (IsDigit(TrimStart(s)[0]) || TrimStart(s)[0] == '-' || TrimStart(s)[0] == '+')
    ensures r.Some? && r.value < 0 ==> |TrimStart(s)| > 0 && TrimStart(s)[0] == '-'
  {
    var t := TrimStart(s);
    if |t| > 0 && (t[0] == '-' || t[0] == '+') then
      match ReadDigits(t[1..])
      case None => None
      case Some(v) => if t[0] == '-' then Some(-(v as int)) else Some(v as int)
    else
      match ReadDigits(t)
      case None => None
      case Some(v) => Some(v as int)
  }

  lemma {:induction false} DigitsValueOfShowNat(n: nat)
    ensures DigitsValue(ShowNat(n)) == n
  {
    var s := ShowNat(n);
    if n >= 10 {
      DigitsValueOfShowNat(n / 10);
      assert s[..|s| - 1] == ShowNat(n / 10);
    }
  }

  lemma {:induction false} DigitRunStopsAt(ds: string, rest: string)
    requires AllDigits(ds)
    requires rest == [] || !IsDigit(rest[0])
    ensures DigitRun(ds + rest) == |ds|
  {
    if |ds| > 0 {
      assert (ds + rest)[1..] == ds[1..] + rest;
      DigitRunStopsAt(ds[1..], rest);
    }
  }

  lemma ReadDigitsOfShowNat(m: nat, rest: string)
    requires rest == [] || !IsDigit(rest[0])
    ensures ReadDigits(ShowNat(m) + rest) == Some(m)
  {
    var ds := ShowNat(m);
    DigitRunStopsAt(ds, rest);
    DigitsValueOfShowNat(m);
    assert (ds + rest)[..|ds|] == ds;
  }

  /** Reading back a rendered number, followed by anything that is not a digit, gives the number. */
  lemma ParseIntOfShow(n: int, rest: string)
    requires rest == [] || !IsDigit(rest[0])
    ensures ParseInt(Show(n) + rest) == Some(n)
  {
    if n < 0 {
      ParseIntOfSigned(-n, rest);
    } else {
      ParseIntOfUnsigned(n, rest);
    }
  }

  lemma ParseIntOfUnsigned(m: nat, rest: string)
    requires rest == [] || !IsDigit(rest[0])
    ensures ParseInt(Show(m) + rest) == Some(m)
  {
    var ds := ShowNat(m);
    assert Show(m) == ds;
    ReadDigitsOfShowNat(m, rest);
    ParseIntOfDigitFirst(ds, rest, m);
  }

  lemma ParseIntOfSigned(m: nat, rest: string)
    requires m > 0
    requires rest == [] || !IsDigit(rest[0])
    ensures ParseInt(Show(-(m as int)) + rest) == Some(-(m as int))
  {
    var ds := ShowNat(m);
    assert Show(-(m as int)) == "-" + ds;
    ReadDigitsOfShowNat(m, rest);
    ParseIntOfMinusFirst(ds, rest, m);
  }

  lemma ParseIntOfDigitFirst(ds: string, rest: string, v: nat)
    requires |ds| > 0 && IsDigit(ds[0])
    requires ReadDigits(ds + rest) == Some(v)
    ensures ParseInt(ds + rest) == Some(v)
  {
    var t := ds + rest;
    assert t[0] == ds[0];
    assert TrimStart(t) == t;
  }

  lemma ParseIntOfMinusFirst(ds: string, rest: string, v: nat)
    requires ReadDigits(ds + rest) == Some(v)
    ensures ParseInt("-" + ds + rest) == Some(-(v as int))
  {
    var t := "-" + ds + rest;
    assert t[1..] == ds + rest;
    assert TrimStart(t) == t;
  }
}

=== FILE: wrappers.dfy ===
/** Optional values: a JSON field that may be absent, a parse that may fail. */
module Wrappers {

  datatype Option<+T> = None | Some(value: T) {

    /** The carried value, or `default` when there is none. */
    function GetOr(default: T): T {
      match this
      case Some(v) => v
      case None => default
    }
  }
}
